=== FILE: README.md ===
# Movie-Hub service core in Dafny

This project models the two services at the centre of Movie-Hub, a Spring Boot
movie catalog: `FileServiceImpl`, which stores poster images on disk, and
`MovieServiceImpl`, which keeps the `movies` table and its poster files in step.

The state is abstract and immutable:

- a **store** (`FileService.Store`): the set of directory paths and the set of
  regular-file paths, by full path;
- a **table** (`MovieRepository.Table`): rows by id, plus the next identity value.

Each single-step service call is a pure function; the listing calls, which
loop over the rows, are methods. Each returns the new state together with a
`Result` that holds either the Java return value or the exception thrown. A
thrown exception does not roll back earlier steps: an upload that fails in the
copy has already created the poster directory. `path + File.separator + name` is
`FileService.Join`, plain concatenation with `/`.

Modules:

- `Wrappers`: `Option` and `Result`.
- `Text`: the Java string operations the services use, over ASCII.
  - `toLowerCase` and `equalsIgnoreCase`.
  - `trim`, which drops characters up to U+0020 from both ends.
  - `lastIndexOf`.
  - the decimal form of a `Long`.
- `Errors`: the exceptions, named after the Java classes. A copy into a
  "directory" that is a regular file fails with a plain `FileSystemException`.
- `FileService`: the file-name functions, the allow-list check, and the
  store transitions.
  - `fileExists` is the predicate `FileService.FileExists`. It is what
    `Files.exists` answers, and the other transitions are stated in terms of it.
- `Entities`: `Movie`, `MovieDTO` and `MoviePageResponse`.
- `MovieRepository`: `save`, `findById`, `findAll` and `delete` over the table.
  - The paged `findAll(pageable)` is a function value `PageRequest -> Result<Page, Error>`.
    Spring computes the slice and its totals, so the model takes them as given.
- `MovieService`: the seven service operations.
- `Lifecycle`: a consistency invariant and how the operations compose.
  - The invariant is: every row's poster file exists and no two rows share one.
  - Composition: get after add, update and delete, and delete twice.
- `Intended`: the corrected `addMovie` and `updateMovie` (see Findings). It also
  holds the witnesses that the code as written behaves differently.

## Model

| member | source | states |
|---|---|---|
| Text.Lower | src/main/java/com/moviehub/service/FileServiceImpl.java:75 | lower-casing keeps the length, leaves no upper-case letter, keeps each character equal to its original ignoring case, and leaves every non-letter in place |
| Text.LowerIdempotent | src/main/java/com/moviehub/service/FileServiceImpl.java:75-76 | lower-casing an already lower-cased string changes nothing, so the second `toLowerCase` is redundant |
| Text.EqualsIgnoreCaseIffLowerEqual | src/main/java/com/moviehub/service/MovieServiceImpl.java:210 | two strings are equal ignoring case exactly when their lower-cased forms are equal |
| Text.TrimEmptyIffBlank | src/main/java/com/moviehub/service/FileServiceImpl.java:49 | `trim().isEmpty()` holds exactly when every character is at most U+0020 |
| Text.LastIndexOf | src/main/java/com/moviehub/service/FileServiceImpl.java:135 | the result is -1 exactly when the character is absent; otherwise it is the index of an occurrence with no occurrence after it |
| Text.ParseNatToString | src/main/java/com/moviehub/service/MovieServiceImpl.java:173 | the decimal numeral of a number reads back as that number |
| Text.IntToStringInjective | src/main/java/com/moviehub/service/MovieServiceImpl.java:173 | different ids have different decimal forms |
| FileService.JoinInjective | src/main/java/com/moviehub/service/FileServiceImpl.java:53 | within one directory, `path + separator + name` determines the name |
| FileService.SanitizeFileName | src/main/java/com/moviehub/service/FileServiceImpl.java:154-156 | sanitising keeps the length, keeps `[a-zA-Z0-9.-]` in place, turns every other character into `_`, and leaves no path separator |
| FileService.SanitizeIdempotent | src/main/java/com/moviehub/service/FileServiceImpl.java:154-156 | sanitising twice gives what sanitising once gives |
| FileService.SanitizeFixedPoint | src/main/java/com/moviehub/service/FileServiceImpl.java:154-156 | a name is left unchanged exactly when all its characters are in `[a-zA-Z0-9._-]` |
| FileService.GenerateUniqueFileName | src/main/java/com/moviehub/service/FileServiceImpl.java:96-98 | the generated name is the sanitised client name, so it has the same length, is left unchanged by sanitising again, and holds no `/` |
| FileService.GeneratedNamesCollide | src/main/java/com/moviehub/service/FileServiceImpl.java:96-98 | the name is not unique: `a b.png` and `a_b.png` both become `a_b.png` |
| FileService.GetFileExtension | src/main/java/com/moviehub/service/FileServiceImpl.java:131-136 | the extension is empty for a null name or a name without a dot; otherwise it is the dot-free suffix that follows a dot |
| FileService.ExtensionAfterLastDot | src/main/java/com/moviehub/service/FileServiceImpl.java:131-136 | for any dot-free `e`, the extension of `stem.e` is `e` |
| FileService.ExtensionOfLower | src/main/java/com/moviehub/service/FileServiceImpl.java:75 | the extension of a lower-cased name is the lower-cased extension |
| FileService.IsValidFileType | src/main/java/com/moviehub/service/FileServiceImpl.java:69-77 | false for a null or empty name; otherwise true exactly when the lower-cased extension is in the allow-list |
| FileService.ValidFileTypeOfExtension | src/main/java/com/moviehub/service/FileServiceImpl.java:69-77 | `stem.e` passes exactly when the lower-cased `e` is listed |
| FileService.ValidFileTypeIgnoresCase | src/main/java/com/moviehub/service/FileServiceImpl.java:75-76 | two names that differ only in letter case get the same answer |
| FileService.UpperCaseEntryNeverMatches | src/main/java/com/moviehub/service/FileServiceImpl.java:76 | an allow-list entry with an upper-case letter never admits anything, because the list itself is not lower-cased |
| FileService.CreateDirectory | src/main/java/com/moviehub/service/FileServiceImpl.java:86-93 | returns true exactly when nothing existed at the path; the path exists afterwards; no file and no other directory changes |
| FileService.CreateDirectoryTwice | src/main/java/com/moviehub/service/FileServiceImpl.java:86-93 | a second call returns false and changes nothing |
| FileService.DeleteFile | src/main/java/com/moviehub/service/FileServiceImpl.java:80-83 | returns true exactly when the path existed; the path is absent afterwards and nothing else changes; a non-empty directory is refused with no change |
| FileService.FileExistsAfterCreateAndDelete | src/main/java/com/moviehub/service/FileServiceImpl.java:113-116 | after `createDirectory` the path exists, after a successful delete it does not, and every other path answers `fileExists` as before |
| FileService.DeleteFileTwice | src/main/java/com/moviehub/service/FileServiceImpl.java:80-83 | after a successful delete, a second call returns false and changes nothing |
| FileService.UploadFile | src/main/java/com/moviehub/service/FileServiceImpl.java:25-44 | empty content fails first with no change. Success returns the sanitised name, which was absent before and is stored afterwards, and the directories grow by exactly the poster directory. Every outcome keeps all existing directories and adds at most that one. An existing target fails with `FileAlreadyExistsException` and no change to the files |
| FileService.GetResourceFile | src/main/java/com/moviehub/service/FileServiceImpl.java:47-66 | every failure is an `EmptyFileException`: a null or blank path or name, a missing file, or a path that is a directory, which `FileInputStream` cannot open. It succeeds exactly on an existing regular file |
| FileService.SanitizedNameNotBlank | src/main/java/com/moviehub/service/FileServiceImpl.java:154-156 | the sanitised form of a non-empty name is never blank after trimming |
| FileService.UploadThenGetResource | src/main/java/com/moviehub/service/FileServiceImpl.java:25-66 | after a successful upload under a non-blank directory, the lookup of the returned name succeeds with the uploaded path |
| FileService.DeleteThenGetResource | src/main/java/com/moviehub/service/FileServiceImpl.java:47-83 | after a successful delete, the lookup of that name fails with `EmptyFileException("File not found: " + name)` |
| MovieRepository.Insert | src/main/java/com/moviehub/service/MovieServiceImpl.java:61 | saving a new row gives it a fresh id, keeps its fields, and adds exactly that row |
| MovieRepository.Replace | src/main/java/com/moviehub/service/MovieServiceImpl.java:146 | saving an existing id replaces that row and leaves every other row alone |
| MovieRepository.Delete | src/main/java/com/moviehub/service/MovieServiceImpl.java:172 | deleting removes exactly that id and keeps every other row |
| MovieRepository.FindAll | src/main/java/com/moviehub/service/MovieServiceImpl.java:101 | as many entries as rows, every entry a row and every row an entry; in a well-formed table the ids strictly ascend, so each row appears once |
| MovieService.PosterUrlInjective | src/main/java/com/moviehub/service/MovieServiceImpl.java:63 | different posters have different URLs `baseUrl + "/file/" + poster` |
| MovieService.FromToDTORoundTrip | src/main/java/com/moviehub/service/MovieServiceImpl.java:65-74 | a response built from a row, read back with the row's id and poster, rebuilds exactly that row: the response loses none of the stored fields |
| MovieService.AddMovie | src/main/java/com/moviehub/service/MovieServiceImpl.java:43-78 | a file under the raw client name fails with `FileExistsException` and no change; empty content fails with no change; any failure leaves table and files alone; in a well-formed store it succeeds exactly when neither the raw nor the sanitised target exists, the content is non-empty and the directory is not a file; success adds exactly one row under a fresh id, with the caller's details and the sanitised poster name, leaves the poster directory in place, and answers that name's URL; every outcome keeps all existing directories and adds at most the poster directory |
| MovieService.GetMovie | src/main/java/com/moviehub/service/MovieServiceImpl.java:81-97 | an absent id fails with `MovieNotFoundException("Movie not found with id: " + id)`. Otherwise the answer describes the stored row with its poster URL, and the `poster` field is unset |
| MovieService.ToDTOList | src/main/java/com/moviehub/service/MovieServiceImpl.java:103-117 | one response per movie, in order, each describing its movie |
| MovieService.GetAllMovies | src/main/java/com/moviehub/service/MovieServiceImpl.java:100-121 | one response per row, in the repository's order, each with its derived URL |
| MovieService.ReplacePoster | src/main/java/com/moviehub/service/MovieServiceImpl.java:130-133 | on success, the old poster file is replaced by the sanitised new one and the poster directory exists; on failure, no file is added and none is lost except the old poster; no directory is removed except an empty one at the old poster's path, and none is added except the poster directory |
| MovieService.SaveUpdate | src/main/java/com/moviehub/service/MovieServiceImpl.java:135-161 | the row keeps its id, takes the request's details and the given poster, and no other row or file changes |
| MovieService.UpdateMovie | src/main/java/com/moviehub/service/MovieServiceImpl.java:124-162 | an absent id fails with `MovieNotFoundException("Movie not found! Movie id: " + id)` and no change. Otherwise the row keeps its id and poster, takes the new details, the response echoes that poster, and the store is unchanged whether or not a file is given |
| MovieService.DeleteMovie | src/main/java/com/moviehub/service/MovieServiceImpl.java:165-174 | an absent id fails with not-found and no change; any failure changes nothing; success removes exactly that row, leaves the poster file absent (no error if it was already missing) and answers `"Movie deleted with id: " + id` |
| MovieService.SortDirection | src/main/java/com/moviehub/service/MovieServiceImpl.java:210 | ascending exactly when the direction equals `asc` ignoring case; every other string is descending |
| MovieService.SortDirectionExamples | src/main/java/com/moviehub/service/MovieServiceImpl.java:210 | `asc`, `ASC` and `aSc` are ascending; `desc`, `ascending` and the empty string are descending |
| MovieService.PageResponse | src/main/java/com/moviehub/service/MovieServiceImpl.java:183-204 | echoes the requested page number and size, maps the content one-to-one and in order, and passes the totals and the last-page flag through |
| MovieService.GetAllMoviesWithPagination | src/main/java/com/moviehub/service/MovieServiceImpl.java:177-205 | answers the unsorted page request for that number and size as `PageResponse` describes |
| MovieService.GetAllMoviesWithPaginationAndSorting | src/main/java/com/moviehub/service/MovieServiceImpl.java:208-237 | answers the page request sorted by `sortBy`, ascending exactly for `asc` ignoring case |
| Lifecycle.AddMovieKeepsConsistent | src/main/java/com/moviehub/service/MovieServiceImpl.java:43-78 | whatever `addMovie` answers, every row still has its poster file and no two rows share one |
| Lifecycle.UpdateMovieKeepsConsistent | src/main/java/com/moviehub/service/MovieServiceImpl.java:124-162 | `updateMovie` keeps the catalog consistent |
| Lifecycle.DeleteMovieKeepsConsistent | src/main/java/com/moviehub/service/MovieServiceImpl.java:165-174 | whatever `deleteMovie` answers, the catalog stays consistent |
| Lifecycle.AddThenGet | src/main/java/com/moviehub/service/MovieServiceImpl.java:43-97 | reading a just-added movie gives the add response without `poster`: the caller's details and the stored poster's URL |
| Lifecycle.UpdateThenGet | src/main/java/com/moviehub/service/MovieServiceImpl.java:124-162 | after an update, a read shows the new details and the old poster's URL |
| Lifecycle.DeleteThenGet | src/main/java/com/moviehub/service/MovieServiceImpl.java:165-174 | after a delete, a read fails with not-found and the poster file is absent |
| Lifecycle.DeleteTwice | src/main/java/com/moviehub/service/MovieServiceImpl.java:165-174 | a second delete of the same id fails with not-found and changes nothing |
| Lifecycle.DeleteConfirmationNamesId | src/main/java/com/moviehub/service/MovieServiceImpl.java:173 | two deletes that answer with the same confirmation deleted the same id |
| Intended.AddMovieChecked | src/main/java/com/moviehub/service/MovieServiceImpl.java:45-49 | fails with `FileExistsException` exactly when the sanitised target exists; never fails with `FileAlreadyExistsException`; in a well-formed store succeeds exactly for non-empty content, a directory that is not a file, and a free target; agrees with the code as written on names sanitising leaves alone; any failure leaves table and files alone; success adds exactly one row under a fresh id, with the caller's details and the sanitised poster name, stores that file, and answers the row's view with its URL; keeps all existing directories and adds at most the poster directory, which exists after a success |
| Intended.AddMoviePrecheckMissesStoredName | src/main/java/com/moviehub/service/MovieServiceImpl.java:45-49 | as written, when only the sanitised target exists, the copy throws `FileAlreadyExistsException` and the duplicate check does not fire |
| Intended.AddMovieDuplicateExample | src/main/java/com/moviehub/service/MovieServiceImpl.java:45-49 | adding `a b.png` while `posters/a_b.png` exists: the code as written throws `FileAlreadyExistsException`, the corrected add `FileExistsException` |
| Intended.AddMovieCheckedKeepsConsistent | src/main/java/com/moviehub/service/MovieServiceImpl.java:43-78 | the corrected add keeps the catalog consistent |
| Intended.UpdateMovieIgnoresFile | src/main/java/com/moviehub/service/MovieServiceImpl.java:128-133 | as written, updating with a file gives exactly what updating without one gives |
| Intended.UpdateMovieReplacing | src/main/java/com/moviehub/service/MovieServiceImpl.java:128-133 | without a file, or for an absent id, it behaves as the code as written; with a file, success gives the row the sanitised new name and swaps the old poster file for the new one, the response's `poster` is the new name, a failure leaves the table alone and loses no file except the old poster, and a non-empty file whose name is free succeeds; with a file, no directory is removed except an empty one at the old poster's path, none is added except the poster directory, and that directory exists after a success |
| Intended.UpdateMovieExample | src/main/java/com/moviehub/service/MovieServiceImpl.java:128-133 | updating movie 1 (poster `old.png`) with `new.png`: the code as written keeps `old.png` and stores nothing, the corrected update stores and records `new.png` |
| Intended.UpdateMovieReplacingKeepsConsistent | src/main/java/com/moviehub/service/MovieServiceImpl.java:124-162 | a successful corrected update keeps the catalog consistent |
| Intended.UpdateReplacingEmptyFileDropsPoster | src/main/java/com/moviehub/service/MovieServiceImpl.java:130-133 | with delete-then-upload, an empty replacement file fails only after the old poster file is gone, which leaves the catalog inconsistent |
| Intended.UpdateReplacingThenGet | src/main/java/com/moviehub/service/MovieServiceImpl.java:124-162 | after a corrected update with a file, a read shows the new details and the new poster's URL |

## Left out

- `MovieController` and `FileController`: HTTP routing, JSON parsing of the
  request body, multipart handling and streaming are outside the service core.
- The derived and `@Query` methods of `MovieRepository`: the services do not
  call them.
- `PageRequest.of` and Spring's `Page`: the slice, `totalPages` and `isLast`
  come from the paged read, which is a parameter. Its rejection of a negative
  page or a size below one is only a `Failure` that read may answer.
- MovieService.GetAllMoviesWithPaginationAndSorting: `Sort.by` throws on a
  null, empty or whitespace-only property name before any read. The model always builds the
  sort and leaves that rejection to the read.
- `movieRepository.save` never fails in the model. In the program a save that
  fails after the upload (MovieServiceImpl.java:49 then :61, for instance a
  blank title refused by `Movie`'s validation) leaves the uploaded poster
  behind with no row; that orphaned file is not represented.
- MovieRepository.FindAll: an unsorted `findAll` returns rows in database
  order. The model fixes ascending id order.
- `getReadableFileSize`: floating-point `log10`/`pow` and `DecimalFormat`.
- `listFiles` and `normalizePath`: file-system walking and path normalisation.
  - The names `""`, `.` and `..` get no special meaning.
  - A name holding `/` is not resolved into sub-directories.
- File content and `InputStream`s: the store records which paths exist, not
  their bytes. `GetResourceFile` answers the path it would open.
- FileService.CreateDirectory: `Files.createDirectories` also creates missing
  parents and fails when a parent is a regular file. The model creates only
  the named path.
- FileService.UploadFile: a failure on an existing target is stated to leave
  the store unchanged only when the directory existed too. The abstract store
  does not tie a path to its parent, so it cannot promise more.
- A null `originalFilename` in `uploadFile` and `addMovie`: the model's
  upload file name is always a string.
  - In `addMovie`, string concatenation turns null into `"null"`. The
    duplicate check therefore looks at `<path>/null` and throws
    `FileExistsException` when that exists.
  - Otherwise `uploadFile` first rejects empty content with
    `EmptyFileException`. Only for non-empty content does it create the
    directory and then throw a `NullPointerException` in `sanitizeFileName`.
  - The null cases of `getFileExtension`, `isValidFileType` and
    `getResourceFile` are modelled with `Option`.
- Failures the host file system adds on its own are not modelled: the store
  has no permissions, and its paths have no forbidden characters.
  - A regular file that exists but cannot be read makes `getResourceFile`
    (FileServiceImpl.java:63-64) throw "Error accessing the file". The model
    fails there only for a directory.
  - A client name holding U+0000 makes `Paths.get` throw
    `InvalidPathException` in the duplicate check of `addMovie`
    (MovieServiceImpl.java:45).
  - Access denied on `Files.copy` (FileServiceImpl.java:40) or on
    `Files.deleteIfExists` (FileServiceImpl.java:82, MovieServiceImpl.java:170).
- Case mapping is ASCII only. `toLowerCase` in a locale such as Turkish and
  `equalsIgnoreCase` on non-ASCII letters are not modelled.
- Ids are unbounded integers, so `Long` overflow of the identity counter is
  not modelled. Identity generation is reduced to "the next counter value".
- Logging, `@Value` injection (the poster directory and base URL are the
  `Config` parameter), Jakarta validation annotations (so the details of a
  `MovieDTO` are never null), and concurrency
  between requests.

## Findings

| source | as written | input that shows it | evidently intended | confidence | as-written member | corrected member |
|---|---|---|---|---|---|---|
| src/main/java/com/moviehub/service/MovieServiceImpl.java:128-133 | `fileName` is set to the stored poster and then compared with the stored poster, so the replace branch never runs and a supplied file is ignored | movie 1 with poster `old.png` in `posters`, updated with a non-empty `new.png`: the answer keeps `old.png` and no file is written | a supplied file (`file != null`) deletes the old poster and uploads the new one | high, not executed | Intended.UpdateMovieExample | Intended.UpdateMovieReplacing |
| src/main/java/com/moviehub/service/MovieServiceImpl.java:45-49 | the duplicate check looks for the raw client name, but the upload stores the sanitised name | `a b.png` added while `posters/a_b.png` exists: the copy throws `FileAlreadyExistsException` instead of the service's `FileExistsException` | the check looks at the name the upload will store | medium, not executed | Intended.AddMovieDuplicateExample | Intended.AddMovieChecked |

The corrected update follows the delete-then-upload order of the code it
repairs. `Intended.UpdateReplacingEmptyFileDropsPoster` shows the remaining
cost of that order: an empty replacement file is refused only after the old
poster file has been deleted.

=== FILE: Entities.dfy ===
/** The movie record, its transfer object and the paged response. */
module Entities {
  import opened Wrappers

  /** A row of the `movies` table; `poster` is a bare file name inside the poster directory. */
  datatype Movie = Movie(
    movieId: int,
    title: string,
    director: string,
    studio: string,
    movieCast: set<string>,
    releaseYear: int,
    poster: string)

  /**
    `MovieDTO`: `movieId`, `poster` and `posterUrl` may be unset (a request
    carries no id and no poster; a response fills all three). The details are
    always present, and `posterUrl` is never stored.
  */
  datatype MovieDTO = MovieDTO(
    movieId: Option<int>,
    title: string,
    director: string,
    studio: string,
    movieCast: set<string>,
    releaseYear: int,
    poster: Option<string>,
    posterUrl: Option<string>)

  /** `MoviePageResponse`. */
  datatype MoviePageResponse = MoviePageResponse(
    movieDTOS: seq<MovieDTO>,
    pageNumber: int,
    pageSize: int,
    totalElements: int,
    totalPages: int,
    isLastPage: bool)

  /** The fields a caller supplies and a response echoes: everything but id and poster. */
  predicate SameDetails(m: Movie, dto: MovieDTO) {
    && m.title == dto.title
    && m.director == dto.director
    && m.studio == dto.studio
    && m.movieCast == dto.movieCast
    && m.releaseYear == dto.releaseYear
  }

  /** Two transfer objects agree on the caller-supplied details. */
  predicate SameRequestDetails(a: MovieDTO, b: MovieDTO) {
    && a.title == b.title
    && a.director == b.director
    && a.studio == b.studio
    && a.movieCast == b.movieCast
    && a.releaseYear == b.releaseYear
  }
}

=== FILE: Errors.dfy ===
/** The exceptions the two services throw or let propagate, named as in Java. */
module Errors {

  datatype Error =
      /** Empty upload, blank resource path or name, missing resource, or a resource path that is a directory. */
    | EmptyFileException(message: string)
      /** Thrown by `Files.copy` without `REPLACE_EXISTING` when the target exists. */
    | FileAlreadyExistsException(path: string)
      /** The plain `FileSystemException` (ENOTDIR) of a copy whose directory is a regular file. */
    | FileSystemException(path: string)
      /** Thrown by `Files.deleteIfExists` on a non-empty directory. */
    | DirectoryNotEmptyException(path: string)
      /** The duplicate-poster check of `addMovie`. */
    | FileExistsException(message: string)
      /** An id with no row. */
    | MovieNotFoundException(message: string)
      /** A failed paged read, e.g. `PageRequest.of` rejecting its arguments. */
    | IllegalArgumentException(message: string)
}

=== FILE: FileService.dfy ===
/**
  The file store behind `FileServiceImpl`: file-name sanitising, extension
  handling, the allow-list check, and the upload / delete / create-directory /
  resource-lookup transitions over an abstract file system.
*/
module FileService {
  import opened Wrappers
  import opened Text
  import opened Errors

  /** `File.separator` on the Unix hosts the service runs on. */
  const Separator: string := "/"

  /** `path + File.separator + name`, kept as written: no path normalisation. */
  function Join(dir: string, name: string): string {
    dir + Separator + name
  }

  /** Within one directory, different names give different paths. */
  lemma JoinInjective(dir: string, a: string, b: string)
    requires Join(dir, a) == Join(dir, b)
    ensures a == b
  {
    assert a == Join(dir, a)[|dir| + 1..];
    assert b == Join(dir, b)[|dir| + 1..];
  }

  newtype byte = x: int | 0 <= x < 256

  /** What the service reads from a `MultipartFile`: the client's file name and the bytes. */
  datatype UploadedFile = UploadedFile(originalFilename: string, content: seq<byte>)

  /** `MultipartFile.isEmpty`. */
  predicate IsEmpty(file: UploadedFile) {
    |file.content| == 0
  }

  /** The file system as the service sees it: directories and regular files, by full path. */
  datatype Store = Store(dirs: set<string>, files: set<string>)

  /** No path is both a directory and a regular file. */
  predicate Wf(s: Store) {
    s.dirs !! s.files
  }

  /** `Files.exists`, which is also what `fileExists` answers. */
  predicate FileExists(s: Store, path: string) {
    path in s.dirs || path in s.files
  }

  /** Some entry of the store lies below directory `dir`. */
  predicate HasEntriesUnder(s: Store, dir: string) {
    exists q :: q in s.dirs + s.files && Join(dir, "") <= q
  }

  /** A store transition together with what the call returned or threw. */
  datatype StoreStep<T> = StoreStep(store: Store, result: Result<T, Error>)

  // ---------------------------------------------------------------------
  // File names
  // ---------------------------------------------------------------------

  /** The regular-expression class `[a-zA-Z0-9.-]` that sanitising keeps. */
  predicate IsSafeChar(c: char) {
    IsAsciiLetter(c) || IsDigit(c) || c == '.' || c == '-'
  }

  /** A character that may appear in a sanitised name: `[a-zA-Z0-9._-]`. */
  predicate IsStoredNameChar(c: char) {
    IsSafeChar(c) || c == '_'
  }

  /**
    `sanitizeFileName`: `replaceAll("[^a-zA-Z0-9.-]", "_")`, one underscore per
    code point outside the class.
  */
  function SanitizeFileName(fileName: string): (r: string)
    ensures |r| == |fileName|
    ensures forall i :: 0 <= i < |fileName| && IsSafeChar(fileName[i]) ==> r[i] == fileName[i]
    ensures forall i :: 0 <= i < |fileName| && !IsSafeChar(fileName[i]) ==> r[i] == '_'
    ensures forall c :: c in r ==> IsStoredNameChar(c)
    ensures '/' !in r && '\\' !in r
  {
    seq(|fileName|, i requires 0 <= i < |fileName| => if IsSafeChar(fileName[i]) then fileName[i] else '_')
  }

  /** Sanitising a sanitised name changes nothing. */
  lemma SanitizeIdempotent(fileName: string)
    ensures SanitizeFileName(SanitizeFileName(fileName)) == SanitizeFileName(fileName)
  {
  }

  /** The names sanitising leaves alone are exactly those over `[a-zA-Z0-9._-]`. */
  lemma SanitizeFixedPoint(fileName: string)
    ensures SanitizeFileName(fileName) == fileName <==> forall c :: c in fileName ==> IsStoredNameChar(c)
  {
    if forall c :: c in fileName ==> IsStoredNameChar(c) {
      forall i | 0 <= i < |fileName|
        ensures SanitizeFileName(fileName)[i] == fileName[i]
      {
        assert fileName[i] in fileName;
      }
    }
  }

  /**
    `generateUniqueFileName`: despite its name, just the sanitised name, so it
    is a fixed point of sanitising and never holds a path separator.
  */
  function GenerateUniqueFileName(originalFilename: string): (r: string)
    ensures r == SanitizeFileName(originalFilename)
    ensures SanitizeFileName(r) == r
    ensures |r| == |originalFilename|
    ensures '/' !in r
  {
    SanitizeIdempotent(originalFilename);
    SanitizeFileName(originalFilename)
  }

  /** Two different client names can be given the same stored name. */
  lemma GeneratedNamesCollide()
    ensures "a b.png" != "a_b.png"
    ensures GenerateUniqueFileName("a b.png") == GenerateUniqueFileName("a_b.png") == "a_b.png"
  {
    assert !IsSafeChar(' ');
  }

  /**
    `getFileExtension`: empty for a null name or one without a dot, otherwise
    the text after the last dot.
  */
  function GetFileExtension(filename: Option<string>): (r: string)
    ensures filename.None? || '.' !in filename.value ==> r == []
    ensures filename.Some? && '.' in filename.value ==>
      var s := filename.value;
      && |r| < |s|
      && r == s[|s| - |r|..]
      && s[|s| - |r| - 1] == '.'
      && '.' !in r
  {
    match filename
    case None => ""
    case Some(s) =>
      if s == [] || '.' !in s then "" else s[LastIndexOf(s, '.') + 1..]
  }

  /** The extension of `stem.e` is `e` whenever `e` has no dot. */
  lemma ExtensionAfterLastDot(stem: string, e: string)
    requires '.' !in e
    ensures GetFileExtension(Some(stem + "." + e)) == e
  {
    var s := stem + "." + e;
    assert s[|stem|] == '.';
  }

  /** Lower-casing a name lower-cases its extension and nothing more. */
  lemma ExtensionOfLower(s: string)
    ensures GetFileExtension(Some(Lower(s))) == Lower(GetFileExtension(Some(s)))
  {
    LowerKeepsNonLetters(s, '.');
    if '.' in s {
      ExtensionOfLowerWithDot(s);
    }
  }

  lemma ExtensionOfLowerWithDot(s: string)
    requires '.' in s && '.' in Lower(s)
    ensures GetFileExtension(Some(Lower(s))) == Lower(GetFileExtension(Some(s)))
  {
    var k := LastIndexOf(s, '.') + 1;
    var t := Lower(s);
    assert LastIndexOf(t, '.') + 1 == k by { LastIndexOfLower(s, '.'); }
    assert GetFileExtension(Some(t)) == t[k..] by { ExtensionAt(t); }
    assert GetFileExtension(Some(s)) == s[k..] by { ExtensionAt(s); }
    LowerSuffix(s, k);
  }

  /** A name with a dot has as extension the text after its last dot. */
  lemma ExtensionAt(s: string)
    requires '.' in s
    ensures GetFileExtension(Some(s)) == s[LastIndexOf(s, '.') + 1..]
  {
  }

  /**
    `isValidFileType`: false for a null or empty name; otherwise whether the
    lower-cased extension is an element of the allow-list. The allow-list
    itself is not lower-cased.
  */
  function IsValidFileType(originalFilename: Option<string>, allowedExtensions: seq<string>): (b: bool)
    ensures originalFilename.None? || originalFilename.value == [] ==> !b
    ensures originalFilename.Some? && originalFilename.value != [] ==>
      (b <==> Lower(GetFileExtension(originalFilename)) in allowedExtensions)
  {
    match originalFilename
    case None => false
    case Some(name) =>
      if name == [] then false
      else
        var extension := Lower(GetFileExtension(originalFilename));
        LowerIdempotent(GetFileExtension(originalFilename));
        Lower(extension) in allowedExtensions
  }

  /** A name `stem.e` passes exactly when the lower-cased `e` is listed. */
  lemma ValidFileTypeOfExtension(stem: string, e: string, allowedExtensions: seq<string>)
    requires '.' !in e
    ensures IsValidFileType(Some(stem + "." + e), allowedExtensions) <==> Lower(e) in allowedExtensions
  {
    ExtensionAfterLastDot(stem, e);
    LowerIdempotent(e);
  }

  /** The check does not depend on the case of the name. */
  lemma ValidFileTypeIgnoresCase(a: string, b: string, allowedExtensions: seq<string>)
    requires Lower(a) == Lower(b)
    ensures IsValidFileType(Some(a), allowedExtensions) == IsValidFileType(Some(b), allowedExtensions)
  {
    ExtensionOfLower(a);
    ExtensionOfLower(b);
  }

  /** An allow-list entry holding an upper-case letter never lets any name through. */
  lemma UpperCaseEntryNeverMatches(name: Option<string>, allowedExtensions: seq<string>, entry: string)
    requires Lower(entry) != entry
    ensures IsValidFileType(name, allowedExtensions + [entry]) == IsValidFileType(name, allowedExtensions)
  {
    var ext := GetFileExtension(name);
    LowerIdempotent(ext);
    assert Lower(ext) != entry;
  }

  // ---------------------------------------------------------------------
  // Store transitions
  // ---------------------------------------------------------------------

  /**
    `createDirectory`: creates the directory when nothing exists at `path`
    and reports whether it did.
  */
  function CreateDirectory(s: Store, path: string): (r: (Store, bool))
    ensures r.1 <==> !FileExists(s, path)
    ensures FileExists(r.0, path)
    ensures r.0.files == s.files && s.dirs <= r.0.dirs
    ensures forall p :: p != path ==> (p in r.0.dirs <==> p in s.dirs)
    ensures Wf(s) ==> Wf(r.0)
  {
    if !FileExists(s, path) then (s.(dirs := s.dirs + {path}), true) else (s, false)
  }

  /** A second `createDirectory` finds the directory and changes nothing. */
  lemma CreateDirectoryTwice(s: Store, path: string)
    ensures var (s1, _) := CreateDirectory(s, path); CreateDirectory(s1, path) == (s1, false)
  {
  }

  /**
    `deleteFile`, i.e. `Files.deleteIfExists`: removes a regular file or an
    empty directory and reports whether something was removed; a non-empty
    directory is refused.
  */
  function DeleteFile(s: Store, path: string): (r: StoreStep<bool>)
    ensures r.result.Success? ==> (r.result.value <==> FileExists(s, path))
    ensures r.result.Success? ==> !FileExists(r.store, path)
    ensures r.result.Success? ==> r.store.files == s.files - {path} && r.store.dirs == s.dirs - {path}
    ensures r.result.Failure? <==> path !in s.files && path in s.dirs && HasEntriesUnder(s, path)
    ensures r.result.Failure? ==> r.store == s && r.result.error == DirectoryNotEmptyException(path)
    ensures Wf(s) ==> Wf(r.store)
  {
    if path in s.files then StoreStep(Store(s.dirs - {path}, s.files - {path}), Success(true))
    else if path in s.dirs then
      if HasEntriesUnder(s, path) then StoreStep(s, Failure(DirectoryNotEmptyException(path)))
      else StoreStep(s.(dirs := s.dirs - {path}), Success(true))
    else StoreStep(s, Success(false))
  }

  /**
    What `fileExists` answers after the two basic transitions: a created
    directory exists, a deleted path does not, and every other path answers
    as before.
  */
  lemma FileExistsAfterCreateAndDelete(s: Store, p: string, q: string)
    requires q != p
    ensures FileExists(CreateDirectory(s, p).0, p)
    ensures FileExists(CreateDirectory(s, p).0, q) == FileExists(s, q)
    ensures DeleteFile(s, p).result.Success? ==> !FileExists(DeleteFile(s, p).store, p)
    ensures FileExists(DeleteFile(s, p).store, q) == FileExists(s, q)
  {
  }

  /** Deleting is idempotent: the second call returns false and changes nothing. */
  lemma DeleteFileTwice(s: Store, path: string)
    requires DeleteFile(s, path).result.Success?
    ensures var s1 := DeleteFile(s, path).store; DeleteFile(s1, path) == StoreStep(s1, Success(false))
  {
  }

  /**
    `uploadFile`: refuse empty content, create the directory, then copy the
    content under the sanitised name without replacing anything.
  */
  function UploadFile(s: Store, path: string, file: UploadedFile): (r: StoreStep<string>)
    ensures IsEmpty(file) ==> r == StoreStep(s, Failure(EmptyFileException("File cannot be empty")))
    ensures r.result.Success? ==>
      var name := r.result.value;
      && name == SanitizeFileName(file.originalFilename)
      && !FileExists(s, Join(path, name))
      && r.store.files == s.files + {Join(path, name)}
      && r.store.dirs == s.dirs + {path}
    ensures r.result.Failure? ==> r.store.files == s.files
    ensures s.dirs <= r.store.dirs <= s.dirs + {path}
    ensures !IsEmpty(file) && FileExists(s, Join(path, SanitizeFileName(file.originalFilename))) ==>
      r.result == Failure(FileAlreadyExistsException(Join(path, SanitizeFileName(file.originalFilename))))
    ensures !IsEmpty(file) && FileExists(s, path) && FileExists(s, Join(path, SanitizeFileName(file.originalFilename))) ==>
      r.store == s
    ensures !IsEmpty(file) && path !in s.files && !FileExists(s, Join(path, SanitizeFileName(file.originalFilename))) ==>
      r.result.Success?
    ensures Wf(s) ==> Wf(r.store)
  {
    if IsEmpty(file) then StoreStep(s, Failure(EmptyFileException("File cannot be empty")))
    else
      var (s1, _) := CreateDirectory(s, path);
      var fileName := GenerateUniqueFileName(file.originalFilename);
      var filePath := Join(path, fileName);
      if FileExists(s1, filePath) then StoreStep(s1, Failure(FileAlreadyExistsException(filePath)))
      else if path !in s1.dirs then StoreStep(s1, Failure(FileSystemException(filePath)))
      else StoreStep(s1.(files := s1.files + {filePath}), Success(fileName))
  }

  /**
    The guards of `getResourceFile`, answering the path it would open. Every
    failure is an `EmptyFileException`, including a missing file.
  */
  function GetResourceFile(s: Store, path: Option<string>, fileName: Option<string>): (r: Result<string, Error>)
    ensures r.Failure? ==> r.error.EmptyFileException?
    ensures path.None? || fileName.None? || AllTrimmable(path.value) || AllTrimmable(fileName.value) ==>
      r == Failure(EmptyFileException("Path and file name must not be empty"))
    ensures r.Success? <==>
      && path.Some? && fileName.Some?
      && !AllTrimmable(path.value) && !AllTrimmable(fileName.value)
      && Join(path.value, fileName.value) in s.files
      && Join(path.value, fileName.value) !in s.dirs
    ensures r.Success? ==> r.value == Join(path.value, fileName.value)
    ensures (path.Some? && fileName.Some? && !AllTrimmable(path.value) && !AllTrimmable(fileName.value)
             && !FileExists(s, Join(path.value, fileName.value))) ==>
      r == Failure(EmptyFileException("File not found: " + fileName.value))
  {
    if path.None? || fileName.None? then Failure(EmptyFileException("Path and file name must not be empty"))
    else
      TrimEmptyIffBlank(path.value);
      TrimEmptyIffBlank(fileName.value);
      if Trim(path.value) == [] || Trim(fileName.value) == [] then
        Failure(EmptyFileException("Path and file name must not be empty"))
      else
        var fullPath := Join(path.value, fileName.value);
        if !FileExists(s, fullPath) then Failure(EmptyFileException("File not found: " + fileName.value))
        else if fullPath in s.dirs then Failure(EmptyFileException("Error accessing the file: " + fullPath))
        else Success(fullPath)
  }

  /** A sanitised name of a non-empty name is never blank: no stored-name character is at most a space. */
  lemma SanitizedNameNotBlank(fileName: string)
    requires fileName != []
    ensures !AllTrimmable(SanitizeFileName(fileName))
  {
    var r := SanitizeFileName(fileName);
    assert r[0] in r;
    assert !IsTrimmable(r[0]);
  }

  /** An uploaded poster can be read back: the lookup finds it under the returned name. */
  lemma UploadThenGetResource(s: Store, path: string, file: UploadedFile)
    requires Wf(s) && !AllTrimmable(path) && file.originalFilename != []
    requires UploadFile(s, path, file).result.Success?
    ensures var r := UploadFile(s, path, file);
      GetResourceFile(r.store, Some(path), Some(r.result.value)) == Success(Join(path, r.result.value))
  {
    SanitizedNameNotBlank(file.originalFilename);
  }

  /** A deleted file is no longer found by the lookup. */
  lemma DeleteThenGetResource(s: Store, dir: string, name: string)
    requires !AllTrimmable(dir) && !AllTrimmable(name)
    requires DeleteFile(s, Join(dir, name)).result.Success?
    ensures GetResourceFile(DeleteFile(s, Join(dir, name)).store, Some(dir), Some(name))
         == Failure(EmptyFileException("File not found: " + name))
  {
  }
}

=== FILE: Intended.dfy ===
/**
  Two `MovieServiceImpl` operations whose code departs from what it evidently
  means: `updateMovie` never replaces the poster, and the duplicate check of
  `addMovie` looks at a name the upload does not store. Each departure is shown
  on the model of the code as written, next to a corrected operation with the
  intended property proved.
*/
module Intended {
  import opened Wrappers
  import opened Text
  import opened Errors
  import opened Entities
  import opened FileService
  import opened MovieRepository
  import opened MovieService
  import opened Lifecycle

  // ---------------------------------------------------------------------
  // addMovie: the duplicate check
  // ---------------------------------------------------------------------

  /**
    `addMovie` with its duplicate check on the path the upload will write:
    `path + File.separator + generateUniqueFileName(originalFilename)`.
  */
  function AddMovieChecked(cfg: Config, c: Catalog, dto: MovieDTO, file: UploadedFile): (r: Step<MovieDTO>)
    ensures r.result == Failure(FileExistsException(DuplicatePoster)) <==>
      FileExists(c.store, Join(cfg.path, SanitizeFileName(file.originalFilename)))
    ensures r.result.Failure? ==> !r.result.error.FileAlreadyExistsException?
    ensures r.result.Failure? ==>
      && r.catalog.table == c.table
      && r.catalog.store.files == c.store.files
    ensures r.result.Success? ==>
      var v := r.result.value;
      var name := SanitizeFileName(file.originalFilename);
      && v.movieId.Some?
      && var id := v.movieId.value;
      && (Valid(c.table) ==> id !in c.table.rows)
      && id in r.catalog.table.rows
      && r.catalog.table.rows == c.table.rows[id := r.catalog.table.rows[id]]
      && var row := r.catalog.table.rows[id];
      && row.movieId == id && SameDetails(row, dto) && row.poster == name
      && Describes(cfg.baseUrl, v, row) && v.poster == Some(name)
      && v.posterUrl == Some(PosterUrl(cfg.baseUrl, name))
      && !FileExists(c.store, Join(cfg.path, name))
      && r.catalog.store.files == c.store.files + {Join(cfg.path, name)}
    ensures Wf(c.store) ==>
      (r.result.Success? <==>
        !IsEmpty(file) && cfg.path !in c.store.files
        && !FileExists(c.store, Join(cfg.path, SanitizeFileName(file.originalFilename))))
    ensures SanitizeFileName(file.originalFilename) == file.originalFilename ==> r == AddMovie(cfg, c, dto, file)
    ensures c.store.dirs <= r.catalog.store.dirs <= c.store.dirs + {cfg.path}
    ensures r.result.Success? ==> cfg.path in r.catalog.store.dirs
    ensures Valid(c.table) ==> Valid(r.catalog.table)
    ensures Wf(c.store) ==> Wf(r.catalog.store)
  {
    var target := Join(cfg.path, GenerateUniqueFileName(file.originalFilename));
    if FileExists(c.store, target) then
      Step(c, Failure(FileExistsException(DuplicatePoster)))
    else
      var upload := UploadFile(c.store, cfg.path, file);
      match upload.result
      case Failure(e) => Step(Catalog(c.table, upload.store), Failure(e))
      case Success(uploadedFileName) =>
        var (table, saved) := Insert(c.table, FromDTO(dto, c.table.nextId, uploadedFileName));
        Step(Catalog(table, upload.store), Success(ToDTO(cfg.baseUrl, saved)))
  }

  /**
    As written, a client name that sanitising changes slips past the check:
    when only the sanitised target exists, the copy throws
    `FileAlreadyExistsException` instead of the service's `FileExistsException`.
  */
  lemma AddMoviePrecheckMissesStoredName(cfg: Config, c: Catalog, dto: MovieDTO, file: UploadedFile)
    requires !IsEmpty(file)
    requires !FileExists(c.store, Join(cfg.path, file.originalFilename))
    requires FileExists(c.store, Join(cfg.path, SanitizeFileName(file.originalFilename)))
    ensures AddMovie(cfg, c, dto, file).result
         == Failure(FileAlreadyExistsException(Join(cfg.path, SanitizeFileName(file.originalFilename))))
    ensures AddMovieChecked(cfg, c, dto, file).result == Failure(FileExistsException(DuplicatePoster))
  {
  }

  /** The departure on a concrete catalog: `a b.png` is added while `a_b.png` is stored. */
  lemma AddMovieDuplicateExample()
    ensures
      var cfg := Config("posters", "http://localhost:8080");
      var c := Catalog(Table(map[], 1), Store({"posters"}, {"posters/a_b.png"}));
      var dto := MovieDTO(None, "T", "D", "S", {}, 2000, None, None);
      var file := UploadedFile("a b.png", [1]);
      && AddMovie(cfg, c, dto, file).result == Failure(FileAlreadyExistsException("posters/a_b.png"))
      && AddMovieChecked(cfg, c, dto, file).result == Failure(FileExistsException(DuplicatePoster))
  {
    var file := UploadedFile("a b.png", [1]);
    assert SanitizeFileName(file.originalFilename) == "a_b.png" by {
      assert !IsSafeChar(' ');
    }
    assert Join("posters", "a b.png") == "posters/a b.png";
    assert Join("posters", "a_b.png") == "posters/a_b.png";
    AddMoviePrecheckMissesStoredName(Config("posters", "http://localhost:8080"),
      Catalog(Table(map[], 1), Store({"posters"}, {"posters/a_b.png"})),
      MovieDTO(None, "T", "D", "S", {}, 2000, None, None), file);
  }

  /** The corrected `addMovie` keeps the catalog consistent, whatever it answers. */
  lemma AddMovieCheckedKeepsConsistent(cfg: Config, c: Catalog, dto: MovieDTO, file: UploadedFile)
    requires Consistent(cfg, c)
    ensures Consistent(cfg, AddMovieChecked(cfg, c, dto, file).catalog)
  {
    var r := AddMovieChecked(cfg, c, dto, file);
    if r.result.Success? {
      var id := r.result.value.movieId.value;
      var name := SanitizeFileName(file.originalFilename);
      var rows := r.catalog.table.rows;
      forall i | i in rows && i != id
        ensures rows[i].poster != name
      {
        assert Join(cfg.path, rows[i].poster) in c.store.files;
      }
    }
  }

  // ---------------------------------------------------------------------
  // updateMovie: replacing the poster
  // ---------------------------------------------------------------------

  /** As written, the file passed to `updateMovie` makes no difference at all. */
  lemma UpdateMovieIgnoresFile(cfg: Config, c: Catalog, movieId: int, dto: MovieDTO, f: UploadedFile)
    ensures UpdateMovie(cfg, c, movieId, dto, Some(f)) == UpdateMovie(cfg, c, movieId, dto, None)
  {
  }

  /**
    `updateMovie` with the guard `file != null`: a supplied file replaces the
    stored poster (old file deleted, new one uploaded) before the row is saved.
  */
  function UpdateMovieReplacing(cfg: Config, c: Catalog, movieId: int, dto: MovieDTO, file: Option<UploadedFile>)
    : (r: Step<MovieDTO>)
    ensures movieId !in c.table.rows || file.None? ==> r == UpdateMovie(cfg, c, movieId, dto, file)
    ensures movieId in c.table.rows && file.Some? ==>
      var mv := c.table.rows[movieId];
      var name := SanitizeFileName(file.value.originalFilename);
      if r.result.Success? then
        && mv.movieId in r.catalog.table.rows
        && var row := r.catalog.table.rows[mv.movieId];
        && row.poster == name && SameDetails(row, dto)
        && Describes(cfg.baseUrl, r.result.value, row)
        && r.catalog.store.files == c.store.files - {Join(cfg.path, mv.poster)} + {Join(cfg.path, name)}
        && (forall id :: id != mv.movieId ==> (id in r.catalog.table.rows <==> id in c.table.rows))
        && (forall id :: id != mv.movieId && id in c.table.rows ==> r.catalog.table.rows[id] == c.table.rows[id])
      else
        r.catalog.table == c.table
    ensures movieId in c.table.rows && file.Some? ==>
      var stored := Join(cfg.path, c.table.rows[movieId].poster);
      && c.store.dirs - {stored} <= r.catalog.store.dirs <= c.store.dirs + {cfg.path}
      && (r.result.Failure? ==> c.store.files - {stored} <= r.catalog.store.files <= c.store.files)
      && (r.result.Success? ==> r.result.value.poster == Some(SanitizeFileName(file.value.originalFilename)))
      && (r.result.Success? ==> cfg.path in r.catalog.store.dirs)
    ensures movieId in c.table.rows && file.Some? && Wf(c.store) && !IsEmpty(file.value)
            && Join(cfg.path, c.table.rows[movieId].poster) in c.store.files && cfg.path !in c.store.files
            && (SanitizeFileName(file.value.originalFilename) == c.table.rows[movieId].poster
                || !FileExists(c.store, Join(cfg.path, SanitizeFileName(file.value.originalFilename)))) ==>
      r.result.Success?
    ensures Valid(c.table) ==> Valid(r.catalog.table)
    ensures Wf(c.store) ==> Wf(r.catalog.store)
  {
    match FindById(c.table, movieId)
    case None => Step(c, Failure(MovieNotFoundException(NotFoundMovieId + IntToString(movieId))))
    case Some(mv) =>
      match file
      case None => SaveUpdate(cfg, c, mv, dto, mv.poster)
      case Some(f) =>
        var replaced := ReplacePoster(cfg, c.store, mv.poster, f);
        match replaced.result
        case Failure(e) => Step(Catalog(c.table, replaced.store), Failure(e))
        case Success(uploaded) => SaveUpdate(cfg, Catalog(c.table, replaced.store), mv, dto, uploaded)
  }

  /** The departure on a concrete catalog: the new poster is neither stored nor recorded. */
  lemma UpdateMovieExample()
    ensures
      var cfg := Config("posters", "http://localhost:8080");
      var c := Catalog(Table(map[1 := Movie(1, "T", "D", "S", {}, 2000, "old.png")], 2),
                       Store({"posters"}, {"posters/old.png"}));
      var dto := MovieDTO(Some(1), "T", "D", "S", {}, 2001, None, None);
      var f := UploadedFile("new.png", [1]);
      var asWritten := UpdateMovie(cfg, c, 1, dto, Some(f));
      var corrected := UpdateMovieReplacing(cfg, c, 1, dto, Some(f));
      && asWritten.result.Success? && asWritten.result.value.poster == Some("old.png")
      && asWritten.catalog.store == c.store
      && corrected.result.Success? && corrected.result.value.poster == Some("new.png")
      && corrected.catalog.store.files == {"posters/new.png"}
  {
    var f := UploadedFile("new.png", [1]);
    assert SanitizeFileName("new.png") == "new.png" by {
      SanitizeFixedPoint("new.png");
    }
    assert Join("posters", "old.png") == "posters/old.png";
    assert Join("posters", "new.png") == "posters/new.png";
  }

  /** A successful corrected update keeps the catalog consistent. */
  lemma UpdateMovieReplacingKeepsConsistent(cfg: Config, c: Catalog, movieId: int, dto: MovieDTO,
                                            file: Option<UploadedFile>)
    requires Consistent(cfg, c)
    requires UpdateMovieReplacing(cfg, c, movieId, dto, file).result.Success?
    ensures Consistent(cfg, UpdateMovieReplacing(cfg, c, movieId, dto, file).catalog)
  {
    var r := UpdateMovieReplacing(cfg, c, movieId, dto, file);
    if file.Some? {
      var prev := c.table.rows[movieId].poster;
      var name := SanitizeFileName(file.value.originalFilename);
      var rows := r.catalog.table.rows;
      forall i | i in rows
        ensures Join(cfg.path, rows[i].poster) in r.catalog.store.files
      {
        if i != movieId {
          var p := c.table.rows[i].poster;
          assert p != prev;
          if Join(cfg.path, p) == Join(cfg.path, prev) {
            JoinInjective(cfg.path, p, prev);
          }
        }
      }
      forall i | i in rows && i != movieId
        ensures rows[i].poster != name
      {
        var p := c.table.rows[i].poster;
        assert p != prev;
        if p == name {
          assert Join(cfg.path, p) in c.store.files;
          if Join(cfg.path, p) == Join(cfg.path, prev) {
            JoinInjective(cfg.path, p, prev);
          }
        }
      }
    } else {
      UpdateMovieKeepsConsistent(cfg, c, movieId, dto, file);
    }
  }

  /**
    Deleting before uploading has a cost: an empty replacement file is refused
    only after the old poster file is gone, so the row is left without its file.
  */
  lemma UpdateReplacingEmptyFileDropsPoster(cfg: Config, c: Catalog, movieId: int, dto: MovieDTO, f: UploadedFile)
    requires Consistent(cfg, c) && movieId in c.table.rows && IsEmpty(f)
    ensures
      var r := UpdateMovieReplacing(cfg, c, movieId, dto, Some(f));
      && r.result == Failure(EmptyFileException("File cannot be empty"))
      && r.catalog.table == c.table
      && Join(cfg.path, c.table.rows[movieId].poster) !in r.catalog.store.files
      && !Consistent(cfg, r.catalog)
  {
  }

  /** After a corrected update with a file, a read shows the new details and the new poster's URL. */
  lemma UpdateReplacingThenGet(cfg: Config, c: Catalog, movieId: int, dto: MovieDTO, f: UploadedFile)
    requires Valid(c.table)
    requires UpdateMovieReplacing(cfg, c, movieId, dto, Some(f)).result.Success?
    ensures
      var g := GetMovie(cfg, UpdateMovieReplacing(cfg, c, movieId, dto, Some(f)).catalog, movieId);
      && g.Success?
      && g.value.movieId == Some(movieId)
      && SameRequestDetails(dto, g.value)
      && g.value.posterUrl == Some(PosterUrl(cfg.baseUrl, SanitizeFileName(f.originalFilename)))
  {
  }
}

=== FILE: Lifecycle.dfy ===
/**
  Properties that relate several `MovieServiceImpl` operations: the pairing of
  rows with poster files that the service keeps, and what a `getMovie` sees
  after each transition.
*/
module Lifecycle {
  import opened Wrappers
  import opened Text
  import opened Errors
  import opened Entities
  import opened FileService
  import opened MovieRepository
  import opened MovieService

  /**
    The catalog is consistent when the table is well formed, no path is both
    a file and a directory, every row's poster file is in the poster
    directory, and no two rows share a poster.
  */
  predicate Consistent(cfg: Config, c: Catalog) {
    && Valid(c.table)
    && Wf(c.store)
    && (forall id :: id in c.table.rows ==> Join(cfg.path, c.table.rows[id].poster) in c.store.files)
    && (forall i, j :: i in c.table.rows && j in c.table.rows && i != j ==>
          c.table.rows[i].poster != c.table.rows[j].poster)
  }

  /** Adding a movie, whether it succeeds or fails, keeps the catalog consistent. */
  lemma AddMovieKeepsConsistent(cfg: Config, c: Catalog, dto: MovieDTO, file: UploadedFile)
    requires Consistent(cfg, c)
    ensures Consistent(cfg, AddMovie(cfg, c, dto, file).catalog)
  {
    var r := AddMovie(cfg, c, dto, file);
    if r.result.Success? {
      var id := r.result.value.movieId.value;
      var name := SanitizeFileName(file.originalFilename);
      var rows := r.catalog.table.rows;
      forall i | i in rows && i != id
        ensures rows[i].poster != name
      {
        assert Join(cfg.path, rows[i].poster) in c.store.files;
      }
    }
  }

  /** Updating a movie keeps the catalog consistent. */
  lemma UpdateMovieKeepsConsistent(cfg: Config, c: Catalog, movieId: int, dto: MovieDTO, file: Option<UploadedFile>)
    requires Consistent(cfg, c)
    ensures Consistent(cfg, UpdateMovie(cfg, c, movieId, dto, file).catalog)
  {
  }

  /** Deleting a movie, whether it succeeds or fails, keeps the catalog consistent. */
  lemma DeleteMovieKeepsConsistent(cfg: Config, c: Catalog, movieId: int)
    requires Consistent(cfg, c)
    ensures Consistent(cfg, DeleteMovie(cfg, c, movieId).catalog)
  {
    var r := DeleteMovie(cfg, c, movieId);
    if r.result.Success? {
      var gone := c.table.rows[movieId].poster;
      forall i | i in r.catalog.table.rows
        ensures Join(cfg.path, r.catalog.table.rows[i].poster) in r.catalog.store.files
      {
        var p := c.table.rows[i].poster;
        assert p != gone;
        if Join(cfg.path, p) == Join(cfg.path, gone) {
          JoinInjective(cfg.path, p, gone);
        }
      }
    }
  }

  /** A movie just added reads back with the caller's details and the stored poster's URL. */
  lemma AddThenGet(cfg: Config, c: Catalog, dto: MovieDTO, file: UploadedFile)
    requires Valid(c.table)
    requires AddMovie(cfg, c, dto, file).result.Success?
    ensures
      var r := AddMovie(cfg, c, dto, file);
      var g := GetMovie(cfg, r.catalog, r.result.value.movieId.value);
      && g == Success(r.result.value.(poster := None))
      && SameRequestDetails(dto, g.value)
      && g.value.posterUrl == Some(PosterUrl(cfg.baseUrl, SanitizeFileName(file.originalFilename)))
  {
  }

  /** After an update, a read shows the new details and still the old poster. */
  lemma UpdateThenGet(cfg: Config, c: Catalog, movieId: int, dto: MovieDTO, file: Option<UploadedFile>)
    requires Valid(c.table) && movieId in c.table.rows
    ensures
      var g := GetMovie(cfg, UpdateMovie(cfg, c, movieId, dto, file).catalog, movieId);
      && g.Success?
      && g.value.movieId == Some(movieId)
      && SameRequestDetails(dto, g.value)
      && g.value.posterUrl == Some(PosterUrl(cfg.baseUrl, c.table.rows[movieId].poster))
  {
  }

  /** After a delete, the id is unknown and its poster file is gone. */
  lemma DeleteThenGet(cfg: Config, c: Catalog, movieId: int)
    requires Valid(c.table)
    requires DeleteMovie(cfg, c, movieId).result.Success?
    ensures
      var r := DeleteMovie(cfg, c, movieId);
      && GetMovie(cfg, r.catalog, movieId) == Failure(MovieNotFoundException(NotFoundWithId + IntToString(movieId)))
      && !FileExists(r.catalog.store, Join(cfg.path, c.table.rows[movieId].poster))
  {
  }

  /** Deleting twice: the second call reports the id as not found and changes nothing. */
  lemma DeleteTwice(cfg: Config, c: Catalog, movieId: int)
    requires Valid(c.table)
    requires DeleteMovie(cfg, c, movieId).result.Success?
    ensures
      var c1 := DeleteMovie(cfg, c, movieId).catalog;
      DeleteMovie(cfg, c1, movieId) == Step(c1, Failure(MovieNotFoundException(NotFoundMovieId + IntToString(movieId))))
  {
  }

  /** The confirmation names the id: two deletes that answer alike deleted the same id. */
  lemma DeleteConfirmationNamesId(cfg: Config, c: Catalog, d: Catalog, a: int, b: int)
    requires DeleteMovie(cfg, c, a).result.Success? && DeleteMovie(cfg, d, b).result.Success?
    requires DeleteMovie(cfg, c, a).result.value == DeleteMovie(cfg, d, b).result.value
    ensures a == b
  {
    var n := |DeletedWithId|;
    assert IntToString(a) == DeleteMovie(cfg, c, a).result.value[n..];
    assert IntToString(b) == DeleteMovie(cfg, d, b).result.value[n..];
    IntToStringInjective(a, b);
  }
}

=== FILE: MovieRepository.dfy ===
/**
  `MovieRepository` reduced to what the service calls: a table of rows by id
  with an identity counter, `save`, `findById`, `findAll`, `delete`, and the
  shapes of a paged read, whose slicing stays with the persistence layer.
*/
module MovieRepository {
  import opened Wrappers
  import opened Errors
  import opened Entities

  /** The `movies` table: rows by id and the next identity value. */
  datatype Table = Table(rows: map<int, Movie>, nextId: int)

  /** Every row is stored under its own id, and every id was issued before `nextId`. */
  predicate Valid(t: Table) {
    forall id :: id in t.rows ==> t.rows[id].movieId == id && id < t.nextId
  }

  /** `findById`. */
  function FindById(t: Table, id: int): Option<Movie> {
    if id in t.rows then Some(t.rows[id]) else None
  }

  /** `save` of a new entity: the row gets the next identity value. */
  function Insert(t: Table, m: Movie): (r: (Table, Movie))
    ensures r.1 == m.(movieId := r.1.movieId)
    ensures r.0.rows == t.rows[r.1.movieId := r.1]
    ensures Valid(t) ==> Valid(r.0) && r.1.movieId !in t.rows
  {
    var saved := m.(movieId := t.nextId);
    (Table(t.rows[t.nextId := saved], t.nextId + 1), saved)
  }

  /** `save` of an entity whose id is already present: the row is replaced whole. */
  function Replace(t: Table, m: Movie): (r: Table)
    ensures m.movieId in r.rows && r.rows[m.movieId] == m
    ensures forall id :: id != m.movieId ==> (id in r.rows <==> id in t.rows)
    ensures forall id :: id != m.movieId && id in t.rows ==> r.rows[id] == t.rows[id]
    ensures Valid(t) && m.movieId in t.rows ==> Valid(r)
  {
    t.(rows := t.rows[m.movieId := m])
  }

  /** `delete`: the row with that id is gone, the others stay. */
  function Delete(t: Table, id: int): (r: Table)
    ensures id !in r.rows
    ensures forall k :: k != id ==> (k in r.rows <==> k in t.rows)
    ensures forall k :: k != id && k in t.rows ==> r.rows[k] == t.rows[k]
    ensures Valid(t) ==> Valid(r)
  {
    t.(rows := t.rows - {id})
  }

  /** Every non-empty finite set of ids has a least element. */
  lemma {:induction false} LeastExists(s: set<int>)
    requires s != {}
    ensures exists m :: m in s && forall x :: x in s ==> m <= x
    decreases |s|
  {
    assert exists x :: x in s by {
      if forall x :: x !in s { assert false; }
    }
    var x :| x in s;
    if s != {x} {
      LeastExists(s - {x});
      var y :| y in s - {x} && forall z :: z in s - {x} ==> y <= z;
      var m := if x < y then x else y;
      forall z | z in s ensures m <= z {
        if z != x { assert z in s - {x}; }
      }
    }
  }

  /** The least element of a non-empty finite set. */
  function Min(s: set<int>): (m: int)
    requires s != {}
    ensures m in s && forall x :: x in s ==> m <= x
  {
    LeastExists(s);
    var m :| m in s && forall x :: x in s ==> m <= x;
    m
  }

  /** The elements of `s` in strictly ascending order. */
  function AscendingIds(s: set<int>): (r: seq<int>)
    ensures |r| == |s|
    ensures forall k :: k in r <==> k in s
    ensures forall i, j :: 0 <= i < j < |r| ==> r[i] < r[j]
    decreases |s|
  {
    if s == {} then []
    else
      var m := Min(s);
      [m] + AscendingIds(s - {m})
  }

  /** The rows under `ids`, in that order. */
  function RowsAt(t: Table, ids: seq<int>): (r: seq<Movie>)
    requires forall i :: 0 <= i < |ids| ==> ids[i] in t.rows
    ensures |r| == |ids|
    ensures forall i :: 0 <= i < |ids| ==> r[i] == t.rows[ids[i]]
  {
    if ids == [] then [] else [t.rows[ids[0]]] + RowsAt(t, ids[1..])
  }

  /** `findAll`: every row exactly once, in ascending id order. */
  function FindAll(t: Table): (r: seq<Movie>)
    ensures |r| == |t.rows|
    ensures forall i :: 0 <= i < |r| ==> r[i] in t.rows.Values
    ensures forall id :: id in t.rows ==> t.rows[id] in r
    ensures Valid(t) ==> forall i, j :: 0 <= i < j < |r| ==> r[i].movieId < r[j].movieId
  {
    var ids := AscendingIds(t.rows.Keys);
    assert forall i :: 0 <= i < |ids| ==> ids[i] in t.rows by {
      forall i | 0 <= i < |ids| ensures ids[i] in t.rows { assert ids[i] in ids; }
    }
    var r := RowsAt(t, ids);
    FindAllCovers(t, ids, r);
    r
  }

  lemma FindAllCovers(t: Table, ids: seq<int>, r: seq<Movie>)
    requires forall k :: k in ids <==> k in t.rows.Keys
    requires |ids| == |t.rows.Keys|
    requires forall i, j :: 0 <= i < j < |ids| ==> ids[i] < ids[j]
    requires |r| == |ids| && forall i :: 0 <= i < |ids| ==> ids[i] in t.rows && r[i] == t.rows[ids[i]]
    ensures |r| == |t.rows|
    ensures forall i :: 0 <= i < |r| ==> r[i] in t.rows.Values
    ensures forall id :: id in t.rows ==> t.rows[id] in r
    ensures Valid(t) ==> forall i, j :: 0 <= i < j < |r| ==> r[i].movieId < r[j].movieId
  {
    forall i | 0 <= i < |r| ensures r[i] in t.rows.Values {
      assert ids[i] in t.rows;
    }
    forall id | id in t.rows ensures t.rows[id] in r {
      assert id in ids;
      var i :| 0 <= i < |ids| && ids[i] == id;
      assert r[i] == t.rows[id];
    }
  }

  datatype Direction = Asc | Desc

  /** `Sort`: unsorted, or by one property in one direction. */
  datatype Sort = Unsorted | By(property: string, direction: Direction)

  /** `PageRequest.of(pageNumber, pageSize[, sort])`. */
  datatype PageRequest = PageRequest(pageNumber: int, pageSize: int, sort: Sort)

  /** `Page<Movie>`: the slice and the totals the persistence layer computed. */
  datatype Page = Page(content: seq<Movie>, totalElements: int, totalPages: int, isLast: bool)

  /** `findAll(pageable)`, supplied from outside the model. */
  type PagedRead = PageRequest -> Result<Page, Error>
}

=== FILE: MovieService.dfy ===
/**
  `MovieServiceImpl`: each operation is a transition of the catalog (the movie
  table and the poster store) that also answers what the Java method returns
  or throws. A thrown exception does not undo the steps taken before it.
*/
module MovieService {
  import opened Wrappers
  import opened Text
  import opened Errors
  import opened Entities
  import opened FileService
  import opened MovieRepository

  /** The injected settings `project.poster` and `base.url`. */
  datatype Config = Config(path: string, baseUrl: string)

  /** Everything the service reads or writes. */
  datatype Catalog = Catalog(table: Table, store: Store)

  /** A catalog transition together with what the call returned or threw. */
  datatype Step<T> = Step(catalog: Catalog, result: Result<T, Error>)

  const FileRoute: string := "/file/"
  const NotFoundWithId: string := "Movie not found with id: "
  const NotFoundMovieId: string := "Movie not found! Movie id: "
  const DuplicatePoster: string := "File already exists! Please enter another filename"
  const DeletedWithId: string := "Movie deleted with id: "

  /** The public address of a poster: `baseUrl + "/file/" + poster`. */
  function PosterUrl(baseUrl: string, poster: string): string {
    baseUrl + FileRoute + poster
  }

  /** A poster URL names its poster: different posters have different URLs. */
  lemma PosterUrlInjective(baseUrl: string, a: string, b: string)
    requires PosterUrl(baseUrl, a) == PosterUrl(baseUrl, b)
    ensures a == b
  {
    var n := |baseUrl + FileRoute|;
    assert a == PosterUrl(baseUrl, a)[n..];
    assert b == PosterUrl(baseUrl, b)[n..];
  }

  /** `d` shows row `m`: same id and details, and the URL derived from the stored poster. */
  predicate Describes(baseUrl: string, d: MovieDTO, m: Movie) {
    && d.movieId == Some(m.movieId)
    && SameDetails(m, d)
    && d.posterUrl == Some(PosterUrl(baseUrl, m.poster))
  }

  /** The response the listings, `addMovie` and `updateMovie` build from a saved row. */
  function ToDTO(baseUrl: string, m: Movie): (d: MovieDTO)
    ensures Describes(baseUrl, d, m) && d.poster == Some(m.poster)
  {
    MovieDTO(Some(m.movieId), m.title, m.director, m.studio, m.movieCast, m.releaseYear,
             Some(m.poster), Some(PosterUrl(baseUrl, m.poster)))
  }

  /** The row built from a request: the caller's details, the given id and poster. */
  function FromDTO(dto: MovieDTO, movieId: int, poster: string): (m: Movie)
    ensures SameDetails(m, dto) && m.movieId == movieId && m.poster == poster
  {
    Movie(movieId, dto.title, dto.director, dto.studio, dto.movieCast, dto.releaseYear, poster)
  }

  /** A response built from a row carries everything needed to rebuild that row. */
  lemma FromToDTORoundTrip(baseUrl: string, m: Movie)
    ensures FromDTO(ToDTO(baseUrl, m), m.movieId, m.poster) == m
    ensures var d := ToDTO(baseUrl, m); d.movieId == Some(m.movieId) && d.poster == Some(m.poster)
  {
  }

  /**
    `addMovie`: refuse when a file with the client's raw name exists, upload the
    poster (stored under its sanitised name), insert the row, answer its view.
  */
  function AddMovie(cfg: Config, c: Catalog, dto: MovieDTO, file: UploadedFile): (r: Step<MovieDTO>)
    ensures FileExists(c.store, Join(cfg.path, file.originalFilename)) ==>
      r == Step(c, Failure(FileExistsException(DuplicatePoster)))
    ensures !FileExists(c.store, Join(cfg.path, file.originalFilename)) && IsEmpty(file) ==>
      r == Step(c, Failure(EmptyFileException("File cannot be empty")))
    ensures r.result.Failure? ==>
      && r.catalog.table == c.table
      && r.catalog.store.files == c.store.files
    ensures c.store.dirs <= r.catalog.store.dirs <= c.store.dirs + {cfg.path}
    ensures r.result.Success? ==>
      var v := r.result.value;
      var name := SanitizeFileName(file.originalFilename);
      && v.movieId.Some?
      && var id := v.movieId.value;
      && (Valid(c.table) ==> id !in c.table.rows)
      && id in r.catalog.table.rows
      && r.catalog.table.rows == c.table.rows[id := r.catalog.table.rows[id]]
      && var row := r.catalog.table.rows[id];
      && row.movieId == id && SameDetails(row, dto) && row.poster == name
      && Describes(cfg.baseUrl, v, row) && v.poster == Some(name)
      && v.posterUrl == Some(PosterUrl(cfg.baseUrl, name))
      && !FileExists(c.store, Join(cfg.path, name))
      && r.catalog.store.files == c.store.files + {Join(cfg.path, name)}
      && cfg.path in r.catalog.store.dirs
    ensures Wf(c.store) ==>
      (r.result.Success? <==>
        && !FileExists(c.store, Join(cfg.path, file.originalFilename))
        && !IsEmpty(file)
        && cfg.path !in c.store.files
        && !FileExists(c.store, Join(cfg.path, SanitizeFileName(file.originalFilename))))
    ensures Valid(c.table) ==> Valid(r.catalog.table)
    ensures Wf(c.store) ==> Wf(r.catalog.store)
  {
    if FileExists(c.store, Join(cfg.path, file.originalFilename)) then
      Step(c, Failure(FileExistsException(DuplicatePoster)))
    else
      var upload := UploadFile(c.store, cfg.path, file);
      match upload.result
      case Failure(e) => Step(Catalog(c.table, upload.store), Failure(e))
      case Success(uploadedFileName) =>
        var (table, saved) := Insert(c.table, FromDTO(dto, c.table.nextId, uploadedFileName));
        Step(Catalog(table, upload.store), Success(ToDTO(cfg.baseUrl, saved)))
  }

  /** `getMovie`: the row's view with the poster URL but without the `poster` field. */
  function GetMovie(cfg: Config, c: Catalog, movieId: int): (r: Result<MovieDTO, Error>)
    ensures movieId !in c.table.rows ==> r == Failure(MovieNotFoundException(NotFoundWithId + IntToString(movieId)))
    ensures movieId in c.table.rows ==>
      && r.Success?
      && Describes(cfg.baseUrl, r.value, c.table.rows[movieId])
      && r.value.poster == None
  {
    match FindById(c.table, movieId)
    case None => Failure(MovieNotFoundException(NotFoundWithId + IntToString(movieId)))
    case Some(movie) => Success(ToDTO(cfg.baseUrl, movie).(poster := None))
  }

  /** The loop shared by the three listings: one view per row, in order. */
  method ToDTOList(baseUrl: string, movies: seq<Movie>) returns (dtos: seq<MovieDTO>)
    ensures |dtos| == |movies|
    ensures forall i :: 0 <= i < |movies| ==>
      Describes(baseUrl, dtos[i], movies[i]) && dtos[i].poster == Some(movies[i].poster)
  {
    dtos := [];
    for i := 0 to |movies|
      invariant |dtos| == i
      invariant forall k :: 0 <= k < i ==>
        Describes(baseUrl, dtos[k], movies[k]) && dtos[k].poster == Some(movies[k].poster)
    {
      dtos := dtos + [ToDTO(baseUrl, movies[i])];
    }
  }

  /** `getAllMovies`: one view per row of the table, in the repository's order. */
  method GetAllMovies(cfg: Config, c: Catalog) returns (dtos: seq<MovieDTO>)
    ensures |dtos| == |c.table.rows|
    ensures var movies := FindAll(c.table);
      forall i :: 0 <= i < |dtos| ==>
        Describes(cfg.baseUrl, dtos[i], movies[i]) && dtos[i].poster == Some(movies[i].poster)
  {
    var movies := FindAll(c.table);
    dtos := ToDTOList(cfg.baseUrl, movies);
  }

  /** The branch `updateMovie` guards: delete the old poster file, then upload the new one. */
  function ReplacePoster(cfg: Config, s: Store, oldPoster: string, file: UploadedFile): (r: StoreStep<string>)
    ensures r.result.Success? ==>
      && r.result.value == SanitizeFileName(file.originalFilename)
      && Join(cfg.path, r.result.value) in r.store.files
      && r.store.files == s.files - {Join(cfg.path, oldPoster)} + {Join(cfg.path, r.result.value)}
    ensures r.result.Failure? ==> s.files - {Join(cfg.path, oldPoster)} <= r.store.files <= s.files
    ensures s.dirs - {Join(cfg.path, oldPoster)} <= r.store.dirs <= s.dirs + {cfg.path}
    ensures r.result.Success? ==> cfg.path in r.store.dirs
    ensures Wf(s) ==> Wf(r.store)
  {
    var deleted := DeleteFile(s, Join(cfg.path, oldPoster));
    match deleted.result
    case Failure(e) => StoreStep(deleted.store, Failure(e))
    case Success(_) => UploadFile(deleted.store, cfg.path, file)
  }

  /** Save the caller's details under the row's id with the given poster and answer the view. */
  function SaveUpdate(cfg: Config, c: Catalog, mv: Movie, dto: MovieDTO, fileName: string): (r: Step<MovieDTO>)
    ensures r.result.Success? && r.catalog.store == c.store
    ensures mv.movieId in r.catalog.table.rows
    ensures var row := r.catalog.table.rows[mv.movieId];
      row.movieId == mv.movieId && SameDetails(row, dto) && row.poster == fileName
      && Describes(cfg.baseUrl, r.result.value, row) && r.result.value.poster == Some(fileName)
    ensures forall id :: id != mv.movieId ==> (id in r.catalog.table.rows <==> id in c.table.rows)
    ensures forall id :: id != mv.movieId && id in c.table.rows ==> r.catalog.table.rows[id] == c.table.rows[id]
    ensures Valid(c.table) && mv.movieId in c.table.rows ==> Valid(r.catalog.table)
  {
    var movie := FromDTO(dto, mv.movieId, fileName);
    Step(Catalog(Replace(c.table, movie), c.store), Success(ToDTO(cfg.baseUrl, movie)))
  }

  /**
    `updateMovie`, as written: `fileName` starts as the stored poster, so the
    guard comparing it with the stored poster is always false and a supplied
    file is ignored.
  */
  function UpdateMovie(cfg: Config, c: Catalog, movieId: int, dto: MovieDTO, file: Option<UploadedFile>): (r: Step<MovieDTO>)
    ensures movieId !in c.table.rows ==>
      r == Step(c, Failure(MovieNotFoundException(NotFoundMovieId + IntToString(movieId))))
    ensures movieId in c.table.rows ==>
      var mv := c.table.rows[movieId];
      && r.result.Success?
      && r.catalog.store == c.store
      && mv.movieId in r.catalog.table.rows
      && var row := r.catalog.table.rows[mv.movieId];
      && row.movieId == mv.movieId && SameDetails(row, dto) && row.poster == mv.poster
      && Describes(cfg.baseUrl, r.result.value, row)
      && r.result.value.poster == Some(mv.poster)
      && (forall id :: id != mv.movieId ==> (id in r.catalog.table.rows <==> id in c.table.rows))
      && (forall id :: id != mv.movieId && id in c.table.rows ==> r.catalog.table.rows[id] == c.table.rows[id])
    ensures Valid(c.table) ==> Valid(r.catalog.table)
  {
    match FindById(c.table, movieId)
    case None => Step(c, Failure(MovieNotFoundException(NotFoundMovieId + IntToString(movieId))))
    case Some(mv) =>
      var fileName := mv.poster;
      match file
      case Some(f) =>
        if fileName != mv.poster then
          var replaced := ReplacePoster(cfg, c.store, fileName, f);
          match replaced.result
          case Failure(e) => Step(Catalog(c.table, replaced.store), Failure(e))
          case Success(uploaded) => SaveUpdate(cfg, Catalog(c.table, replaced.store), mv, dto, uploaded)
        else
          SaveUpdate(cfg, c, mv, dto, fileName)
      case None =>
        SaveUpdate(cfg, c, mv, dto, fileName)
  }

  /**
    `deleteMovie`: delete the poster file if present, then the row, and
    confirm with the requested id.
  */
  function DeleteMovie(cfg: Config, c: Catalog, movieId: int): (r: Step<string>)
    ensures movieId !in c.table.rows ==>
      r == Step(c, Failure(MovieNotFoundException(NotFoundMovieId + IntToString(movieId))))
    ensures r.result.Failure? ==> r.catalog == c
    ensures r.result.Success? ==>
      var mv := c.table.rows[movieId];
      && movieId in c.table.rows
      && r.result.value == DeletedWithId + IntToString(movieId)
      && mv.movieId !in r.catalog.table.rows
      && (forall id :: id != mv.movieId ==> (id in r.catalog.table.rows <==> id in c.table.rows))
      && (forall id :: id != mv.movieId && id in c.table.rows ==> r.catalog.table.rows[id] == c.table.rows[id])
      && !FileExists(r.catalog.store, Join(cfg.path, mv.poster))
      && r.catalog.store.files == c.store.files - {Join(cfg.path, mv.poster)}
      && r.catalog.store.dirs == c.store.dirs - {Join(cfg.path, mv.poster)}
    ensures movieId in c.table.rows && Join(cfg.path, c.table.rows[movieId].poster) !in c.store.dirs ==>
      r.result.Success?
    ensures Valid(c.table) ==> Valid(r.catalog.table)
    ensures Wf(c.store) ==> Wf(r.catalog.store)
  {
    match FindById(c.table, movieId)
    case None => Step(c, Failure(MovieNotFoundException(NotFoundMovieId + IntToString(movieId))))
    case Some(mv) =>
      var deleted := DeleteFile(c.store, Join(cfg.path, mv.poster));
      match deleted.result
      case Failure(e) => Step(Catalog(c.table, deleted.store), Failure(e))
      case Success(_) =>
        Step(Catalog(Delete(c.table, mv.movieId), deleted.store), Success(DeletedWithId + IntToString(movieId)))
  }

  /** The sort direction of `getAllMoviesWithPaginationAndSorting`: ascending only for "asc" in any case. */
  function SortDirection(direction: string): (d: Direction)
    ensures d == Asc <==> Lower(direction) == "asc"
  {
    EqualsIgnoreCaseIffLowerEqual(direction, "asc");
    assert Lower("asc") == "asc";
    if EqualsIgnoreCase(direction, "asc") then Asc else Desc
  }

  /** A few spellings and where they land. */
  lemma SortDirectionExamples()
    ensures SortDirection("asc") == Asc && SortDirection("ASC") == Asc && SortDirection("aSc") == Asc
    ensures SortDirection("desc") == Desc && SortDirection("ascending") == Desc && SortDirection("") == Desc
  {
    assert Lower("ASC") == "asc";
    assert Lower("aSc") == "asc";
    assert Lower("asc") == "asc";
  }

  /**
    How a paged response answers the repository's page: the requested page
    number and size echoed, the content mapped one-to-one and in order, and
    the totals passed through; a failed read propagates.
  */
  predicate AnswersPage(baseUrl: string, page: Result<Page, Error>, pageNumber: int, pageSize: int,
                        r: Result<MoviePageResponse, Error>)
  {
    match page
    case Failure(e) => r == Failure(e)
    case Success(p) =>
      && r.Success?
      && r.value.pageNumber == pageNumber
      && r.value.pageSize == pageSize
      && r.value.totalElements == p.totalElements
      && r.value.totalPages == p.totalPages
      && r.value.isLastPage == p.isLast
      && |r.value.movieDTOS| == |p.content|
      && forall i :: 0 <= i < |p.content| ==>
           Describes(baseUrl, r.value.movieDTOS[i], p.content[i])
           && r.value.movieDTOS[i].poster == Some(p.content[i].poster)
  }

  /** Map one page the repository answered into the response. */
  method PageResponse(baseUrl: string, moviePages: Result<Page, Error>, pageNumber: int, pageSize: int)
    returns (r: Result<MoviePageResponse, Error>)
    ensures AnswersPage(baseUrl, moviePages, pageNumber, pageSize, r)
  {
    match moviePages
    case Failure(e) =>
      r := Failure(e);
    case Success(page) =>
      var dtos := ToDTOList(baseUrl, page.content);
      r := Success(MoviePageResponse(dtos, pageNumber, pageSize, page.totalElements, page.totalPages, page.isLast));
  }

  /** `getAllMoviesWithPagination`: an unsorted page request. */
  method GetAllMoviesWithPagination(cfg: Config, findAll: PagedRead, pageNumber: int, pageSize: int)
    returns (r: Result<MoviePageResponse, Error>)
    ensures AnswersPage(cfg.baseUrl, findAll(PageRequest(pageNumber, pageSize, Unsorted)), pageNumber, pageSize, r)
  {
    var pageable := PageRequest(pageNumber, pageSize, Unsorted);
    r := PageResponse(cfg.baseUrl, findAll(pageable), pageNumber, pageSize);
  }

  /** `getAllMoviesWithPaginationAndSorting`: a page request sorted by `sortBy` in the parsed direction. */
  method GetAllMoviesWithPaginationAndSorting(cfg: Config, findAll: PagedRead, pageNumber: int, pageSize: int,
                                              sortBy: string, direction: string)
    returns (r: Result<MoviePageResponse, Error>)
    ensures var d := if Lower(direction) == "asc" then Asc else Desc;
      AnswersPage(cfg.baseUrl, findAll(PageRequest(pageNumber, pageSize, By(sortBy, d))), pageNumber, pageSize, r)
  {
    var sort := By(sortBy, SortDirection(direction));
    var pageable := PageRequest(pageNumber, pageSize, sort);
    r := PageResponse(cfg.baseUrl, findAll(pageable), pageNumber, pageSize);
  }
}

=== FILE: Text.dfy ===
/**
  The pieces of java.lang.String and java.lang.Long that the services rely on:
  ASCII case mapping, `equalsIgnoreCase`, `trim`, `lastIndexOf` and `Long.toString`.
  A Dafny `char` is a Unicode scalar value, so a `string` here is a sequence of
  code points, which is also how `String.replaceAll` sees its input.
*/
module Text {

  predicate IsAsciiUpper(c: char) { 'A' <= c <= 'Z' }

  predicate IsAsciiLower(c: char) { 'a' <= c <= 'z' }

  predicate IsAsciiLetter(c: char) { IsAsciiUpper(c) || IsAsciiLower(c) }

  predicate IsDigit(c: char) { '0' <= c <= '9' }

  /** `Character.toLowerCase`, restricted to the ASCII letters. */
  function LowerChar(c: char): char {
    if IsAsciiUpper(c) then (c as int + 32) as char else c
  }

  /** `Character.toUpperCase`, restricted to the ASCII letters. */
  function UpperChar(c: char): char {
    if IsAsciiLower(c) then (c as int - 32) as char else c
  }

  /**
    `String.toLowerCase`, restricted to the ASCII letters: no upper-case letter
    is left, each character stays equal to its original ignoring case, and
    every non-letter stays where it is.
  */
  function Lower(s: string): (r: string)
    ensures |r| == |s|
    ensures forall i :: 0 <= i < |s| ==> !IsAsciiUpper(r[i]) && CharsEqualIgnoreCase(r[i], s[i])
    ensures forall i :: 0 <= i < |s| && !IsAsciiLetter(s[i]) ==> r[i] == s[i]
  {
    seq(|s|, i requires 0 <= i < |s| => LowerChar(s[i]))
  }

  /** Lower-casing twice is lower-casing once. */
  lemma LowerIdempotent(s: string)
    ensures Lower(Lower(s)) == Lower(s)
  {
  }

  /** Lower-casing commutes with taking a suffix. */
  lemma LowerSuffix(s: string, k: nat)
    requires k <= |s|
    ensures Lower(s)[k..] == Lower(s[k..])
  {
  }

  /** Lower-casing never creates or removes a given non-letter character. */
  lemma LowerKeepsNonLetters(s: string, c: char)
    requires !IsAsciiLetter(c)
    ensures c in Lower(s) <==> c in s
  {
    if c in s {
      var i :| 0 <= i < |s| && s[i] == c;
      assert Lower(s)[i] == c;
    }
  }

  /**
    Two characters are equal ignoring case in the sense of `String.equalsIgnoreCase`:
    identical, or equal after upper-casing, or equal after lower-casing.
  */
  predicate CharsEqualIgnoreCase(a: char, b: char) {
    a == b || UpperChar(a) == UpperChar(b) || LowerChar(a) == LowerChar(b)
  }

  /** `String.equalsIgnoreCase`: same length and pairwise equal ignoring case. */
  predicate EqualsIgnoreCase(a: string, b: string) {
    |a| == |b| && forall i :: 0 <= i < |a| ==> CharsEqualIgnoreCase(a[i], b[i])
  }

  lemma CharsEqualIgnoreCaseIffLower(a: char, b: char)
    ensures CharsEqualIgnoreCase(a, b) <==> LowerChar(a) == LowerChar(b)
  {
  }

  /** Comparing ignoring case is the same as comparing the lower-cased strings. */
  lemma EqualsIgnoreCaseIffLowerEqual(a: string, b: string)
    ensures EqualsIgnoreCase(a, b) <==> Lower(a) == Lower(b)
  {
    if Lower(a) == Lower(b) {
      forall i | 0 <= i < |a|
        ensures CharsEqualIgnoreCase(a[i], b[i])
      {
        assert Lower(a)[i] == Lower(b)[i];
        CharsEqualIgnoreCaseIffLower(a[i], b[i]);
      }
    }
    if EqualsIgnoreCase(a, b) {
      forall i | 0 <= i < |a|
        ensures Lower(a)[i] == Lower(b)[i]
      {
        CharsEqualIgnoreCaseIffLower(a[i], b[i]);
      }
    }
  }

  /** The characters `String.trim` removes: every code point up to U+0020. */
  predicate IsTrimmable(c: char) { c <= ' ' }

  function TrimStart(s: string): (r: string)
    ensures |r| <= |s| && r == s[|s| - |r|..]
    ensures r == [] || !IsTrimmable(r[0])
  {
    if |s| > 0 && IsTrimmable(s[0]) then TrimStart(s[1..]) else s
  }

  function TrimEnd(s: string): (r: string)
    ensures |r| <= |s| && r == s[..|r|]
    ensures r == [] || !IsTrimmable(r[|r| - 1])
  {
    if |s| > 0 && IsTrimmable(s[|s| - 1]) then TrimEnd(s[..|s| - 1]) else s
  }

  /** `String.trim`: drop leading and trailing characters up to U+0020. */
  function Trim(s: string): string {
    TrimEnd(TrimStart(s))
  }

  predicate AllTrimmable(s: string) {
    forall i :: 0 <= i < |s| ==> IsTrimmable(s[i])
  }

  lemma {:induction false} TrimStartEmptyIff(s: string)
    ensures TrimStart(s) == [] <==> AllTrimmable(s)
    decreases |s|
  {
    if |s| > 0 && IsTrimmable(s[0]) {
      TrimStartEmptyIff(s[1..]);
      if AllTrimmable(s[1..]) {
        forall i | 0 <= i < |s| ensures IsTrimmable(s[i]) {
          if i > 0 { assert s[i] == s[1..][i - 1]; }
        }
      }
    }
  }

  lemma {:induction false} TrimEndEmptyIff(s: string)
    ensures TrimEnd(s) == [] <==> AllTrimmable(s)
    decreases |s|
  {
    if |s| > 0 && IsTrimmable(s[|s| - 1]) {
      TrimEndEmptyIff(s[..|s| - 1]);
      if AllTrimmable(s[..|s| - 1]) {
        forall i | 0 <= i < |s| ensures IsTrimmable(s[i]) {
          if i < |s| - 1 { assert s[i] == s[..|s| - 1][i]; }
        }
      }
    }
  }

  /** A string trims to the empty string exactly when every character is at most U+0020. */
  lemma TrimEmptyIffBlank(s: string)
    ensures Trim(s) == [] <==> AllTrimmable(s)
  {
    var t := TrimStart(s);
    TrimStartEmptyIff(s);
    TrimEndEmptyIff(t);
  }

  /**
    `String.lastIndexOf(c)`: the index of the last occurrence of `c`, or -1
    when there is none.
  */
  function LastIndexOf(s: string, c: char): (r: int)
    ensures -1 <= r < |s|
    ensures r == -1 <==> c !in s
    ensures 0 <= r ==> s[r] == c && forall j :: r < j < |s| ==> s[j] != c
  {
    if |s| == 0 then -1
    else if s[|s| - 1] == c then |s| - 1
    else
      var r := LastIndexOf(s[..|s| - 1], c);
      assert c in s ==> c in s[..|s| - 1] by {
        if c in s {
          var j :| 0 <= j < |s| && s[j] == c;
          assert s[..|s| - 1][j] == c;
        }
      }
      r
  }

  /** Lower-casing does not move the last occurrence of a non-letter. */
  lemma {:induction false} LastIndexOfLower(s: string, c: char)
    requires !IsAsciiLetter(c)
    ensures LastIndexOf(Lower(s), c) == LastIndexOf(s, c)
    decreases |s|
  {
    if |s| > 0 {
      var t := s[..|s| - 1];
      assert Lower(s)[..|s| - 1] == Lower(t);
      LastIndexOfLower(t, c);
    }
  }

  function DigitChar(d: nat): (c: char)
    requires d < 10
    ensures IsDigit(c)
  {
    ('0' as int + d) as char
  }

  function DigitValue(c: char): (d: nat)
    requires IsDigit(c)
    ensures d < 10 && DigitChar(d) == c
  {
    c as int - '0' as int
  }

  predicate AllDigits(s: string) {
    forall i :: 0 <= i < |s| ==> IsDigit(s[i])
  }

  /** The decimal numeral of `n`, without leading zeros. */
  function NatToString(n: nat): (s: string)
    ensures |s| >= 1 && AllDigits(s)
    ensures s[0] == '0' <==> n == 0
    decreases n
  {
    if n < 10 then [DigitChar(n)] else NatToString(n / 10) + [DigitChar(n % 10)]
  }

  /** The value of a decimal numeral. */
  function ParseDigits(s: string): nat
    requires AllDigits(s)
  {
    if s == [] then 0 else ParseDigits(s[..|s| - 1]) * 10 + DigitValue(s[|s| - 1])
  }

  /** Reading a printed numeral back gives the number printed. */
  lemma {:induction false} ParseNatToString(n: nat)
    ensures ParseDigits(NatToString(n)) == n
    decreases n
  {
    var s := NatToString(n);
    if n >= 10 {
      ParseNatToString(n / 10);
      assert s[..|s| - 1] == NatToString(n / 10);
    }
  }

  /** `Long.toString`: an optional minus sign followed by the decimal numeral. */
  function IntToString(i: int): (s: string)
    ensures |s| >= 1
    ensures s[0] == '-' <==> i < 0
  {
    if i < 0 then "-" + NatToString(-i) else NatToString(i)
  }

  lemma NatToStringInjective(m: nat, n: nat)
    requires NatToString(m) == NatToString(n)
    ensures m == n
  {
    ParseNatToString(m);
    ParseNatToString(n);
  }

  /** Distinct numbers print differently, so a message naming an id identifies it. */
  lemma IntToStringInjective(a: int, b: int)
    requires IntToString(a) == IntToString(b)
    ensures a == b
  {
    var s := IntToString(a);
    if a < 0 {
      assert b < 0;
      assert NatToString(-a) == s[1..] == NatToString(-b);
      NatToStringInjective(-a, -b);
    } else {
      assert 0 <= b;
      NatToStringInjective(a, b);
    }
  }
}

=== FILE: Wrappers.dfy ===
/** Nullable values and exception-carrying results, as used throughout the model. */
module Wrappers {

  /** A Java reference that may be `null`. */
  datatype Option<+T> = None | Some(value: T)

  /** The outcome of a Java call: a returned value or a thrown exception. */
  datatype Result<+T, +E> = Success(value: T) | Failure(error: E)
}
